=== FILE: README.md ===
# Chat widget conversation store, in Dafny

This project models the conversation-history store of the embeddable chat widget `chatbot2.js`. It also models the input checks that decide what goes into that store. The widget keeps two pieces of state:

- the **active log** (`messageHistory`), and
- the browser's key-value storage (`localStorage`). In that storage:
  - `saas-chatbot-history` holds the active conversation;
  - `saas-chatbot-history-<time stamp>` holds archived conversations;
  - unrelated keys such as `saas-chatbot-visited` may sit beside them.

The model treats every operation as a pure function over immutable data:

- appending a message, with write-through to the active slot;
- loading at startup;
- starting a new chat, which archives the old log;
- clearing all history;
- restoring an archive;
- the history menu (collect, sort newest first, 50-character preview);
- the header's message-count label;
- checking an uploaded file;
- sending a question and choosing the reply;
- the `isTyping` gate that blocks a second send.

The files and their modules:

- `wrappers.dfy` (`Wrappers`): `Option` and `Result`.
- `strings.dfy` (`Strings`): the JavaScript string operations used:
  - `trim` with JavaScript's exact white-space set;
  - `toLowerCase` (A-Z and the Kelvin sign);
  - `split('.').pop()`;
  - `join`;
  - integer-to-text.
- `model.dfy` (`Model`): messages (`Content = Text | File`), stored values (`Stored = Parsed | Blank | Malformed`), the storage keys, the configuration object with its shipped defaults, and the state record.
- `store.dfy` (`Store`): append, startup, new chat, clear all, restore, and the indicator label.
- `history_list.dfy` (`HistoryList`): the history menu.
- `upload.dfy` (`Upload`): file checks.
- `send.dfy` (`Send`): sending, replies and the typing gate.
- `session.dfy` (`Session`): every user or network action as one event, plus properties that span operations.

The model has four pieces of state: the log, storage, `isTyping` (`typing`), and whether the typing-indicator element is on screen (`typingShown`). The element is tracked separately because the chat body can be emptied under it (see Findings).

Three behaviours of the code are easy to miss:

- **Restore is memory-only.** `loadHistory` (chatbot2.js:631-648) replaces the in-memory log and writes nothing to storage. `Store.Restore` keeps storage unchanged, and `Session.RestoreBreaksMirror` shows that the active slot then disagrees with the log until the next write.
- **Sends are serialised.** The Enter key and the send button both check `isTyping` before calling `sendMessage` (chatbot2.js:264-266, 282-284), and the flag is set before the request is awaited, so a second send cannot start while one is in flight. `Send.Submit` models that gate.
- **The message count includes the welcome message.** `updateHistoryIndicator` counts every entry whose `type` is `"message"`, the welcome message included.

## Model

| member | source | states |
|---|---|---|
| Strings.TrimStart | chatbot2.js:519 | the result is the suffix of the input that starts at its first non-white-space character; everything dropped is white space |
| Strings.TrimEnd | chatbot2.js:519 | the result is the prefix of the input that ends at its last non-white-space character; everything dropped is white space |
| Strings.Trim | chatbot2.js:519 | `trim()` output is a contiguous piece of the input, everything cut off before and after it is white space, and neither end of it is white space |
| Strings.TrimEmptyIffBlank | chatbot2.js:519-521 | trimming yields the empty string exactly when the input is all white space, which is when a send is ignored |
| Strings.TrimIdempotent | chatbot2.js:519 | trimming an already trimmed text changes nothing |
| Strings.ToLower | chatbot2.js:480 | lower-casing keeps the length and maps each character on its own, folding A-Z to a-z and the Kelvin sign to `k` |
| Strings.ToLowerIdempotent | chatbot2.js:480 | after lower-casing no upper-case letter remains, and lower-casing again changes nothing |
| Strings.AfterLastDot | chatbot2.js:480 | `split('.').pop()` is the longest dot-free suffix of the name: either the whole name or the part after the last dot |
| Strings.AfterLastDotWhole | chatbot2.js:480 | the last segment is the whole name exactly when the name contains no dot |
| Strings.AfterLastDotSplit | chatbot2.js:480 | for a name of the form stem + "." + dot-free text, the last segment is that text |
| Strings.NatToString | chatbot2.js:561 | a count is rendered as a non-empty string of decimal digits with no leading zero |
| Strings.DecimalRoundTrip | chatbot2.js:561 | reading the rendered digits back gives the original count |
| Model.ArchiveKeyIsNotActive | chatbot2.js:655 | no archive key `saas-chatbot-history-<stamp>` can equal the active key |
| Store.Append | chatbot2.js:396-404 | an append puts exactly one message at the end of the log and leaves the rest unchanged; afterwards the active slot holds the new log; no other storage key changes; the typing flags do not change |
| Store.CountMessages | chatbot2.js:558 | the number of entries tagged "message" is at most the log's length, and equals it exactly when every entry is tagged |
| Store.IndicatorLabel | chatbot2.js:556-566 | the label is "New Chat" exactly when at most one entry is a message; otherwise it ends in " messages" |
| Store.CountAppend | chatbot2.js:558 | appending raises the message count by one exactly when the new entry is tagged "message" |
| Store.IndicatorLabelRoundTrip | chatbot2.js:556-566 | the label reads "New Chat" exactly when at most one message is logged; otherwise it is a digit string followed by " messages", and the digits read back as the count |
| Store.AppendIndicator | chatbot2.js:550-566 | after appending a message the label shows the new count N as "N messages" when N > 1, and "New Chat" when the log had no message before |
| Store.Startup | chatbot2.js:190-202 | a stored active slot becomes the log unchanged and storage is untouched; an absent or empty-string slot seeds the welcome message and writes it through; a slot that does not parse is an error; on success the slot mirrors the log and no send is pending |
| Store.StartNewChat | chatbot2.js:651-667 | a non-empty log is copied exactly to `saas-chatbot-history-<stamp>`, overwriting that key; afterwards the log and the active slot are exactly the welcome message; every other key is unchanged; the typing indicator is gone |
| Store.ClearAll | chatbot2.js:670-686 | afterwards only the active slot is left among keys starting with `saas-chatbot-history`, and it holds just the welcome message; every key without that prefix keeps its presence and value |
| Store.Restore | chatbot2.js:631-648 | a missing key changes nothing; a stored message array becomes the log exactly; an unparsable value is an error; storage is never written |
| Store.RestoreThenNewChat | chatbot2.js:631-667 | restoring a non-empty archive and then starting a new chat archives an exact copy of it again |
| HistoryList.Listed | chatbot2.js:578-581 | a key is listed only if it is in storage, has the `saas-chatbot-history-` prefix, and holds a non-empty message array; a listed key is a history key and never the active one |
| HistoryList.ActiveKeyNeverListed | chatbot2.js:578 | the active key is never listed because it lacks the trailing dash |
| HistoryList.Collect | chatbot2.js:577-592 | the items are exactly the enumerated keys that have the archive prefix and hold a non-empty parsed array, one per key, each taking its time stamp and preview from the first stored message; keys whose value is not a message array are skipped (see Left out for values that are not arrays) |
| HistoryList.Insert | chatbot2.js:595-596 | inserting into a newest-first list keeps it newest first and adds exactly the one item |
| HistoryList.HeadIsNewest | chatbot2.js:595-596 | the first item of a newest-first list is at least as new as every item in it |
| HistoryList.PrependNewest | chatbot2.js:595-596 | an item at least as new as every item of a newest-first list can go in front of it and keep the order |
| HistoryList.SortNewestFirst | chatbot2.js:595-596 | the sorted list is a permutation of its input ordered by non-increasing time stamp |
| HistoryList.LoadHistoryList | chatbot2.js:569-596 | the menu's list is a permutation of the collected items, ordered by non-increasing time stamp, with every listed key exactly once and nothing else |
| HistoryList.DistinctPreserved | chatbot2.js:595-596 | sorting cannot duplicate a key: a permutation of a list without repeated keys has none either |
| HistoryList.MultisetUnique | chatbot2.js:582-586 | in a list without repeated keys each item occurs exactly once |
| HistoryList.Preview | chatbot2.js:619 | a text of at most 50 characters is its own preview; a longer one gives its first 50 characters followed by "..."; a preview is at most 53 characters long |
| HistoryList.PreviewIdempotent | chatbot2.js:619 | previewing a preview changes nothing |
| HistoryList.PreviewFixedPoints | chatbot2.js:619 | a text is its own preview exactly when it has at most 50 characters, or has 53 and already ends in "..." |
| HistoryList.ItemPreview | chatbot2.js:619 | a first message that is text has a preview; one that is a file descriptor has none, because the call throws |
| HistoryList.RenderPreviews | chatbot2.js:599-623 | the menu shows one preview line per item, in list order, up to the first item whose first message is a file; nothing is shown after that item |
| HistoryList.RenderAll | chatbot2.js:599-623 | when every item starts with text, every item is rendered |
| Upload.Extension | chatbot2.js:480 | the extension is the lower-cased suffix of the name that follows its last dot, or the whole name lower-cased when it has no dot; it contains no dot |
| Upload.ExtensionDotted | chatbot2.js:480 | for any stem, a name stem + "." + dot-free text has that text, lower-cased, as its extension |
| Upload.Validate | chatbot2.js:480-491 | a file is rejected for its type exactly when its extension is not allowed; it is too large exactly when the type is allowed and the size exceeds maxFileSize × 1024 × 1024; otherwise it is accepted |
| Upload.StatusText | chatbot2.js:480-506 | each verdict has its own status text ("Invalid file type. Allowed: ", "File too large (max ", "Uploaded: "), so the verdict can be read back from the text; an accepted file's text ends with its name |
| Upload.HandleFileUpload | chatbot2.js:472-507 | no file changes nothing and shows no status; for a selected file the status shown is the text for its verdict (the "Invalid file type" or "File too large" words for a rejection, "Uploaded: " and the name for an acceptance); a rejected file leaves the state as it was; an accepted file appends exactly one user message with the file's name, size and URL, written through |
| Upload.DefaultUpperCaseExtension | chatbot2.js:480-491 | under the shipped configuration "Report.PDF" is accepted at exactly 5242880 bytes and too large at one byte more |
| Upload.KelvinExtension | chatbot2.js:480-481 | "clip.m" + Kelvin sign + "v" is accepted when "mkv" is allowed, because the Kelvin sign lower-cases to `k` |
| Upload.DefaultTypeBeforeSize | chatbot2.js:480-491 | under the shipped configuration, a name ending in ".exe", whatever comes before it (other dotted segments such as ".pdf" included), is rejected for its type at any size |
| Send.ReplyText | chatbot2.js:539-544 | a non-empty answer is shown as is; an empty or missing answer shows the fixed "couldn't find an answer" text; a failure shows the fixed connectivity text; the reply is never empty |
| Send.ReplyIsAnswer | chatbot2.js:541 | unless the reply is one of the two fixed texts, a non-empty answer arrived and the reply is that answer |
| Send.Submit | chatbot2.js:517-526 | a send while `isTyping` is set, or of blank input, changes nothing; otherwise exactly the trimmed text is appended as a user message, written through, and the typing indicator goes up |
| Send.SecondSubmitBlocked | chatbot2.js:264-284 | once a send is accepted, whatever is submitted next before the reply is ignored, so a second send cannot start while one is in flight |
| Send.ReceiveAsWritten | chatbot2.js:455-461 | the reply is appended and written through; `isTyping` is cleared only if the indicator element was still present |
| Send.Receive | chatbot2.js:540-544 | corrected reply: exactly one bot message with the chosen text is appended, written through, and sending is enabled again |
| Send.ReceiveAgreesWhenShown | chatbot2.js:455-461 | the written and corrected replies agree whenever the indicator's presence matches `isTyping` |
| Send.TypingStuckAfterNewChat | chatbot2.js:455-461 | starting a new chat while a reply is pending leaves `isTyping` set after the reply, so every later send is ignored |
| Send.ReceiveReenablesSend | chatbot2.js:264-266 | after a corrected reply, a non-blank send is accepted again |
| Send.SendExchange | chatbot2.js:517-547 | a whole send with no event in between, with the reply as written, appends the trimmed user message and exactly one bot reply, written through, and ends with sending enabled; a blank or blocked send changes nothing |
| Session.Step | chatbot2.js:472-686 | one user or network event, with either reply handler: a restore never writes storage or touches `isTyping`; every other event keeps the active slot equal to the log |
| Session.StepKeepsArchives | chatbot2.js:651-686 | no event creates or alters a key other than the active slot, except the archive key a new chat writes; only clearing removes keys |
| Session.StepMirrors | chatbot2.js:550-551 | every event except a restore keeps the active slot equal to the log |
| Session.RestoreBreaksMirror | chatbot2.js:631-648 | restoring a different conversation leaves the active slot holding the old one |
| Session.RestoreThenAppendMirrors | chatbot2.js:396-404 | the first append after a restore writes the restored conversation, plus the new message, to the active slot |
| Session.ArchiveKeyHasPrefix | chatbot2.js:655 | an archive key starts with both the list prefix and the clearing prefix |
| Session.ArchivePrefixExtendsActive | chatbot2.js:673 | every key with the list prefix also has the clearing prefix and is not the active key |
| Session.NewChatIsListed | chatbot2.js:577-586 | after a new chat from a non-empty log, the archive is listed, with the old log's first message as its time stamp and preview |
| Session.NewChatThenRestore | chatbot2.js:631-656 | opening the archive a new chat just wrote gives back the old log exactly and leaves storage as it was |
| Session.ClearAllEmptiesList | chatbot2.js:670-686 | after clearing, no key is listed and the log is just the welcome message |
| Session.StepKeepsVisited | chatbot2.js:670-686 | the first-visit flag `saas-chatbot-visited` is not a history key, so no event, clearing included, creates, removes or changes it |
| Session.NewerListedFirst | chatbot2.js:595-596 | of two listed conversations, the one with the newer first message comes first |
| Session.StartupWellFormed | chatbot2.js:190-202 | if every conversation stored under a history key starts with a text message, so does every such conversation after startup, and the log; keys of other scripts may hold anything |
| Session.StepWellFormed | chatbot2.js:631-686 | every event the widget can raise (a restore only of a key the menu offers) keeps the log and every conversation under a history key starting with a text message |
| Session.RunWellFormed | chatbot2.js:631-686 | any sequence of such events keeps every conversation starting with a text message |
| Session.ListFullyRendered | chatbot2.js:599-623 | in such a state the history menu renders a preview line for every listed conversation |
| Session.StepTagged | chatbot2.js:396-404 | every entry an event adds to the log is tagged `type: "message"`, so if the log and every history conversation are fully tagged, they stay so after any event |
| Session.TaggedIndicator | chatbot2.js:556-566 | in a fully tagged state the indicator counts every log entry, and shows "New Chat" exactly when the log has at most one entry |

## Findings

| source | as written | input that shows it | evidently intended | confidence | as-written member | corrected member |
|---|---|---|---|---|---|---|
| chatbot2.js:455-461 | `hideTypingIndicator` clears `isTyping` only when it finds the typing element. `startNewChat`, `clearHistory` and `loadHistory` empty the chat body, which removes that element. | Send "hi". Before the answer arrives, click "+ New". The answer arrives, but `isTyping` stays true, so Enter and the send button are ignored from then on. | A settled request always re-enables sending. | not executed; high | Send.TypingStuckAfterNewChat | Send.Receive |

`Send.ReceiveAsWritten` models the code as written. `Send.Receive` is the corrected reply. `Session.Step` takes a `Build` argument: `AsWritten` runs `ReceiveAsWritten`, which is chatbot2.js as it stands, and `Corrected` runs `Send.Receive`. Every `Session` lemma holds for both. `Send.ReceiveReenablesSend` shows that, after a corrected reply, the next non-blank send is accepted. `Send.ReceiveAgreesWhenShown` shows the two versions differ only in the case above.

## Left out

- DOM construction, styling and visibility toggles are not modelled. This covers the container, header, menu, input area, button, chat toggling and the history-menu toggle. It also covers re-rendering messages on load or restore, which never touches the log or storage.
- The network is not modelled: the `fetch` calls, `initiateBot`, `getFaviconUrl`, and the first-visit auto-open in `init`. The question endpoint appears only as its outcome, `Send.AskResult`. The failure path of `initiateBot` (chatbot2.js:699-701) appends nothing: its `catch (e)` reads the undeclared name `error` on line 700, which throws before line 701 can add the connectivity message.
- Several tabs of one site share one `localStorage`, each with its own in-memory log, so one tab's writes can overwrite another's active slot. The model has one widget and one `State`, and does not model this.
- JSON is not modelled. Storage values are already-parsed `Stored` values:
  - `Parsed(messages)` stands for a message array;
  - `Blank` stands for the empty string;
  - `Malformed` covers every other value, including JSON that parses to a non-array such as `true`.
- HistoryList.Collect: a history key whose value parses to something with a positive `length` that is not a message array is listed by the code (chatbot2.js:580-586). What happens next depends on the value's first element:
  - with no string `content`, as for the JSON string `"abc"` or `[{}]`, its `preview` has no `substring`, so line 619 throws. That aborts the menu, and at startup it aborts `init` through `createHistoryMenu` (line 172);
  - with a string `content`, as for `[{"content":"hi"}]` (or a message whose `timestamp` is not a date), line 619 renders it, for example as "Invalid Date: hi", and line 620 makes it clickable.
  The model treats all such values as `Malformed` and skips them, so in both cases it lists less than the code.
- Store.Restore: a key whose value is not a message array is an `Err`, and `Session.Step` then keeps the state. For falsy JSON (`null`, `false`, `0`, `""`) this matches the code: line 633 returns with nothing changed. For a truthy non-array the code first empties the chat body at line 636, which removes the typing element, and then throws while re-rendering. The model keeps the typing element's presence (`typingShown`) as it was in that case. The menu offers only archive keys, so this case arises only from values another script writes there.
- Store.Startup: `init` builds the history menu (chatbot2.js:712, through `loadHistoryList` at line 172) before it loads the active slot (line 713). If storage holds a listed archive whose first message is a file, line 619 throws during that menu build, `init` aborts, and the load at lines 190-202 never runs. `Store.Startup` still returns `Ok` with the slot's log for such storage. `Session.StartupWellFormed` and `Session.RunWellFormed` show that the widget's own events never write such an archive.
- HistoryList.SortNewestFirst: the order among items with equal time stamps is not stated. The insertion sort keeps input order for them, as JavaScript's stable sort does, but no contract says so.
- The "No saved conversations" placeholder for an empty menu is display only and is not modelled.
- Time is an input, not a clock. Message time stamps are integers (milliseconds), compared as `new Date(...)` compares them. The archive key's suffix is a string the caller supplies. `toLocaleTimeString` and the time prefix of each menu line are not modelled.
- The upload's 1.5 s delay, the transient "Uploading" status and its 3 s hide are not modelled. An accepted file is appended when it is handled. The model does not cover an upload that completes after a later event, which would land in whichever log is active then.
- The order in which the browser enumerates `localStorage` is a parameter (`keys` in `HistoryList.LoadHistoryList`). Storage quota errors on `setItem` are not modelled.
- Strings are sequences of Unicode code points. JavaScript measures lengths and `substring` in UTF-16 units, so previews of text with characters outside the Basic Multilingual Plane can differ.
- Strings.ToLower: folds A-Z and the Kelvin sign U+212A (which `toLowerCase` turns into `k`), and leaves every other character as it is. The only other character whose lower case contains an ASCII letter is U+0130, which becomes "i" followed by U+0307; that can never equal an all-ASCII type, and every other non-ASCII character lower-cases to non-ASCII text. So for an allowed list of lower-case ASCII types, such as the shipped one, the verdict matches the source. A list with non-ASCII types is not modelled faithfully.
- Send.ReplyText: `answer` is taken to be a string. A truthy non-string answer, such as a number, is not modelled.
- Config.maxFileSize is a natural number. A fractional megabyte limit is not modelled.
- A startup slot that does not parse aborts `init` in the source. The model returns `Err(ParseError)` and nothing further happens.

=== FILE: history_list.dfy ===
/** `loadHistoryList`: the archived conversations found in storage, sorted
    newest first, and the 50-character previews the menu shows for them. */
module HistoryList {
  import opened Wrappers
  import opened Strings
  import opened Model

  /** One row of the menu: the archive key and its first message. */
  datatype HistoryItem = HistoryItem(key: string, timestamp: int, first: Content)

  /** A key is listed when it starts with the archive prefix and its value
      parses as a non-empty message array; anything else is skipped. A
      listed key is a history key, and never the active one. */
  predicate Listed(storage: Storage, k: string): (b: bool)
    ensures b ==> k in storage && StartsWith(k, ActiveKey) && k != ActiveKey
  {
    assert StartsWith(k, ArchivePrefix) ==> k[..|ActiveKey|] == ActiveKey;
    k in storage && StartsWith(k, ArchivePrefix) && storage[k].Parsed? && |storage[k].messages| > 0
  }

  function ItemFor(storage: Storage, k: string): HistoryItem
    requires Listed(storage, k)
  {
    var m := storage[k].messages[0];
    HistoryItem(k, m.timestamp, m.content)
  }

  /** The active key lacks the trailing dash of the archive prefix, so it is
      never listed, whatever it holds. */
  lemma ActiveKeyNeverListed(storage: Storage)
    ensures !Listed(storage, ActiveKey)
  {
  }

  predicate DistinctKeys(keys: seq<string>) {
    forall i, j :: 0 <= i < j < |keys| ==> keys[i] != keys[j]
  }

  predicate DistinctItemKeys(items: seq<HistoryItem>) {
    forall i, j :: 0 <= i < j < |items| ==> items[i].key != items[j].key
  }

  /** The collection loop, visiting the keys in storage enumeration order:
      one item per listed key, in that order, built from its first message. */
  function Collect(storage: Storage, keys: seq<string>): (items: seq<HistoryItem>)
    ensures forall it :: it in items ==> it.key in keys && Listed(storage, it.key) && it == ItemFor(storage, it.key)
    ensures forall k :: k in keys && Listed(storage, k) ==> ItemFor(storage, k) in items
    ensures DistinctKeys(keys) ==> DistinctItemKeys(items)
    ensures |items| <= |keys|
  {
    if keys == [] then []
    else
      var rest := Collect(storage, keys[1..]);
      if Listed(storage, keys[0]) then
        assert DistinctKeys(keys) ==> keys[0] !in keys[1..];
        [ItemFor(storage, keys[0])] + rest
      else rest
  }

  /** `(a, b) => new Date(b.timestamp) - new Date(a.timestamp)` as an order:
      no item is older than one after it. */
  ghost predicate NewestFirst(items: seq<HistoryItem>) {
    forall i, j :: 0 <= i < j < |items| ==> items[i].timestamp >= items[j].timestamp
  }

  /** Inserts `x` after every item at least as new as it. */
  function Insert(x: HistoryItem, s: seq<HistoryItem>): (r: seq<HistoryItem>)
    requires NewestFirst(s)
    ensures NewestFirst(r)
    ensures multiset(r) == multiset(s) + multiset{x}
    ensures forall y :: y in r ==> y == x || y in s
  {
    if s == [] then [x]
    else if s[0].timestamp < x.timestamp then
      HeadIsNewest(s);
      PrependNewest(x, s);
      [x] + s
    else
      var tail := Insert(x, s[1..]);
      HeadIsNewest(s);
      PrependNewest(s[0], tail);
      assert s == [s[0]] + s[1..];
      [s[0]] + tail
  }

  /** The head of a newest-first list is at least as new as everything in it. */
  lemma HeadIsNewest(s: seq<HistoryItem>)
    requires NewestFirst(s) && s != []
    ensures forall y :: y in s ==> s[0].timestamp >= y.timestamp
  {
    forall y | y in s ensures s[0].timestamp >= y.timestamp {
      var k :| 0 <= k < |s| && s[k] == y;
    }
  }

  /** An item at least as new as every item of a newest-first list can go in
      front of it. */
  lemma PrependNewest(h: HistoryItem, t: seq<HistoryItem>)
    requires NewestFirst(t)
    requires forall y :: y in t ==> h.timestamp >= y.timestamp
    ensures NewestFirst([h] + t)
  {
    var r := [h] + t;
    forall i, j | 0 <= i < j < |r| ensures r[i].timestamp >= r[j].timestamp {
      assert r[j] == t[j - 1];
      if i > 0 {
        assert r[i] == t[i - 1];
      } else {
        assert t[j - 1] in t;
      }
    }
  }

  /** `historyItems.sort(...)`, as an insertion sort. */
  method SortNewestFirst(items: seq<HistoryItem>) returns (sorted: seq<HistoryItem>)
    ensures NewestFirst(sorted)
    ensures multiset(sorted) == multiset(items)
  {
    sorted := [];
    for i := 0 to |items|
      invariant NewestFirst(sorted)
      invariant multiset(sorted) == multiset(items[..i])
    {
      sorted := Insert(items[i], sorted);
      assert items[..i + 1] == items[..i] + [items[i]];
    }
    assert items[..|items|] == items;
  }

  /** The whole list: exactly the listed keys, one item each, built from the
      stored first message, newest first. `keys` is the order in which the
      browser enumerates `localStorage`, so it holds every stored key once. */
  method LoadHistoryList(storage: Storage, keys: seq<string>) returns (items: seq<HistoryItem>)
    requires forall k :: k in storage <==> k in keys
    requires DistinctKeys(keys)
    ensures forall it :: it in items ==> Listed(storage, it.key) && it == ItemFor(storage, it.key)
    ensures forall k :: Listed(storage, k) ==> ItemFor(storage, k) in items
    ensures DistinctItemKeys(items)
    ensures NewestFirst(items)
    ensures multiset(items) == multiset(Collect(storage, keys))
  {
    var found := Collect(storage, keys);
    items := SortNewestFirst(found);
    assert forall it :: it in items <==> it in found by {
      forall it ensures it in items <==> it in found {
        assert it in items <==> it in multiset(items);
      }
    }
    DistinctPreserved(found, items);
  }

  /** Two sequences with the same elements and no repeats in the first have
      no repeated key in the second either, when keys determine items. */
  lemma DistinctPreserved(a: seq<HistoryItem>, b: seq<HistoryItem>)
    requires DistinctItemKeys(a)
    requires multiset(a) == multiset(b)
    ensures DistinctItemKeys(b)
  {
    forall i, j | 0 <= i < j < |b| ensures b[i].key != b[j].key {
      assert b == b[..i] + [b[i]] + b[i + 1..j] + [b[j]] + b[j + 1..];
      assert multiset(b)[b[i]] >= 1 + (if b[i] == b[j] then 1 else 0);
      assert b[i] in multiset(a) && b[j] in multiset(a);
      var p :| 0 <= p < |a| && a[p] == b[i];
      var q :| 0 <= q < |a| && a[q] == b[j];
      MultisetUnique(a, p);
      assert p != q;
    }
  }

  /** In a sequence without repeated keys every element occurs once. */
  lemma {:induction false} MultisetUnique(a: seq<HistoryItem>, p: int)
    requires DistinctItemKeys(a)
    requires 0 <= p < |a|
    ensures multiset(a)[a[p]] == 1
  {
    assert a == a[..p] + [a[p]] + a[p + 1..];
    assert a[p] !in a[..p];
    assert a[p] !in a[p + 1..];
  }

  const PreviewLength := 50
  const Ellipsis := "..."

  /** `preview.substring(0, 50)` followed by "..." when the text is longer
      than 50 characters. */
  function Preview(s: string): (r: string)
    ensures |s| <= PreviewLength ==> r == s
    ensures |s| > PreviewLength ==>
      |r| == PreviewLength + |Ellipsis| && r[..PreviewLength] == s[..PreviewLength] && r[PreviewLength..] == Ellipsis
    ensures |r| <= PreviewLength + |Ellipsis|
  {
    if |s| > PreviewLength then s[..PreviewLength] + Ellipsis else s
  }

  /** A preview is its own preview. */
  lemma PreviewIdempotent(s: string)
    ensures Preview(Preview(s)) == Preview(s)
  {
  }

  /** The texts a preview leaves unchanged: those of at most 50 characters,
      and also the 53-character ones that already end in "...". */
  lemma PreviewFixedPoints(s: string)
    ensures Preview(s) == s <==> |s| <= PreviewLength || (|s| == PreviewLength + |Ellipsis| && s[PreviewLength..] == Ellipsis)
  {
  }

  /** The preview of a first message: text is previewed, while a file
      descriptor has no `substring` and makes the rendering throw. */
  function ItemPreview(c: Content): (p: Option<string>)
    ensures p.Some? <==> c.Text?
    ensures c.Text? ==> p.value == Preview(c.text)
  {
    match c
    case Text(t) => Some(Preview(t))
    case File(_, _, _) => None
  }

  /** The rendering loop: one preview line per item, in order, up to the
      first item whose preview throws; nothing after that one is rendered. */
  function RenderPreviews(items: seq<HistoryItem>): (lines: seq<string>)
    ensures |lines| <= |items|
    ensures forall i :: 0 <= i < |lines| ==> ItemPreview(items[i].first) == Some(lines[i])
    ensures |lines| < |items| ==> items[|lines|].first.File?
  {
    if items == [] then []
    else match ItemPreview(items[0].first)
      case None => []
      case Some(p) => [p] + RenderPreviews(items[1..])
  }

  /** When every listed conversation starts with a text message, every item
      is rendered. */
  lemma RenderAll(items: seq<HistoryItem>)
    requires forall i :: 0 <= i < |items| ==> items[i].first.Text?
    ensures |RenderPreviews(items)| == |items|
  {
  }
}

=== FILE: model.dfy ===
/** The widget's data: messages, the configuration object, the browser's
    key-value storage, and the in-memory state the store operations act on. */
module Model {

  datatype Sender = User | Bot

  /** A message body is either plain text or the descriptor of an uploaded
      file; `url` is an opaque object URL. */
  datatype Content = Text(text: string) | File(name: string, url: string, size: nat)

  /** One entry of a conversation log. `kind` is the `type` field, which the
      widget always sets to "message" but which entries read back from
      storage may carry with another value. `timestamp` is the ISO time
      stamp, read as milliseconds since the epoch. */
  datatype Message = Message(kind: string, content: Content, sender: Sender, timestamp: int)

  const MessageKind := "message"

  /** What `JSON.parse` makes of a stored value: an array of messages, an
      empty string (which the startup check treats as absent), or anything
      else that does not read as a message array. */
  datatype Stored = Parsed(messages: seq<Message>) | Blank | Malformed

  /** `localStorage`: string keys to stored values. */
  type Storage = map<string, Stored>

  /** The active conversation's slot. */
  const ActiveKey := "saas-chatbot-history"

  /** Archived conversations live under this prefix followed by a time stamp. */
  const ArchivePrefix := "saas-chatbot-history-"

  /** The first-visit flag; it shares no prefix with the history keys. */
  const VisitedKey := "saas-chatbot-visited"

  function ArchiveKey(stamp: string): string {
    ArchivePrefix + stamp
  }

  /** The recognised configuration options that the store depends on. */
  datatype Config = Config(welcomeMessage: string, allowedFileTypes: seq<string>, maxFileSize: nat)

  const DefaultConfig := Config(
    "Hello! How can I help you today?",
    ["pdf", "docx", "txt", "png", "jpg", "jpeg"],
    5)

  /** The mutable state of the widget that matters to the store:
      `log` is `messageHistory`, `storage` is `localStorage`, `typing` is the
      `isTyping` flag, and `typingShown` says whether the typing-indicator
      element is currently in the chat body. */
  datatype State = State(log: seq<Message>, storage: Storage, typing: bool, typingShown: bool)

  /** A `JSON.parse` exception. */
  datatype Error = ParseError

  /** The active log is mirrored in the active slot. */
  predicate Mirrored(st: State) {
    ActiveKey in st.storage && st.storage[ActiveKey] == Parsed(st.log)
  }

  /** `a` and `b` agree on every key outside `keys`: same presence, same value. */
  ghost predicate SameExcept(a: Storage, b: Storage, keys: set<string>) {
    forall k :: k !in keys ==> (k in a <==> k in b) && (k in a && k in b ==> a[k] == b[k])
  }

  /** No archive key is the active key: the prefix already is longer. */
  lemma ArchiveKeyIsNotActive(stamp: string)
    ensures ArchiveKey(stamp) != ActiveKey
  {
  }
}

=== FILE: send.dfy ===
/** `sendMessage` and the `isTyping` gate on the send button and Enter key.
    A send is two events: the submission (the user message and the typing
    indicator) and, once the request settles, the reply. */
module Send {
  import opened Strings
  import opened Model
  import opened Store

  const NoAnswerReply := "I couldn't find an answer to that question."
  const ConnectivityReply := "Sorry, I'm having trouble connecting. Please try again later."

  /** What the question endpoint produced: a response carrying an `answer`
      string, a response without one, or a failure (network error or a body
      that is not JSON). */
  datatype AskResult = Answered(answer: string) | NoAnswer | Failed

  /** `data.answer || fallback`: an empty answer is falsy and falls back;
      a thrown error shows the connectivity message. */
  function ReplyText(a: AskResult): (r: string)
    ensures a.Answered? && a.answer != "" ==> r == a.answer
    ensures (a.Answered? && a.answer == "") || a.NoAnswer? ==> r == NoAnswerReply
    ensures a.Failed? ==> r == ConnectivityReply
    ensures r != ""
  {
    match a
    case Answered(s) => if s != "" then s else NoAnswerReply
    case NoAnswer => NoAnswerReply
    case Failed => ConnectivityReply
  }

  /** The bot's text equals the endpoint's answer exactly when a non-empty
      answer came back, unless the answer happens to be one of the two
      fixed strings. */
  lemma ReplyIsAnswer(a: AskResult)
    ensures a.Answered? && a.answer != "" ==> ReplyText(a) == a.answer
    ensures ReplyText(a) != NoAnswerReply && ReplyText(a) != ConnectivityReply ==>
      a.Answered? && ReplyText(a) == a.answer
  {
  }

  /** Pressing Enter or the send button: ignored while `isTyping` is set,
      and ignored when the input is blank after trimming; otherwise the
      trimmed text is appended as a user message (written through) and the
      typing indicator is shown. */
  function Submit(st: State, input: string, now: int): (r: State)
    ensures st.typing ==> r == st
    ensures AllSpace(input) ==> r == st
    ensures !st.typing && !AllSpace(input) ==>
      && |r.log| == |st.log| + 1 && r.log[..|st.log|] == st.log
      && r.log[|st.log|] == Message(MessageKind, Text(Trim(input)), User, now)
      && Trim(input) != ""
      && Mirrored(r) && SameExcept(st.storage, r.storage, {ActiveKey})
      && r.typing && r.typingShown
  {
    TrimEmptyIffBlank(input);
    if st.typing then st
    else
      var q := Trim(input);
      if q == "" then st
      else Append(st, NewMessage(Text(q), User, now)).(typing := true, typingShown := true)
  }

  /** Once a send is accepted, a second one cannot start before the reply:
      whatever is typed next is ignored. */
  lemma SecondSubmitBlocked(st: State, input: string, next: string, t1: int, t2: int)
    requires !st.typing && !AllSpace(input)
    ensures var s := Submit(st, input, t1);
      |s.log| == |st.log| + 1 && Submit(s, next, t2) == s
  {
  }

  /** The reply as written: `hideTypingIndicator` clears `isTyping` only when
      it finds the indicator element, then the bot's text is appended. */
  function ReceiveAsWritten(st: State, a: AskResult, now: int): (r: State)
    ensures r.log == st.log + [NewMessage(Text(ReplyText(a)), Bot, now)] && Mirrored(r)
    ensures r.typing == (st.typing && !st.typingShown) && !r.typingShown
  {
    var hidden := if st.typingShown then st.(typing := false, typingShown := false) else st;
    Append(hidden, NewMessage(Text(ReplyText(a)), Bot, now))
  }

  /** The reply, with `isTyping` cleared whether or not the indicator element
      is still there; otherwise as written. */
  function Receive(st: State, a: AskResult, now: int): (r: State)
    ensures |r.log| == |st.log| + 1 && r.log[..|st.log|] == st.log
    ensures r.log[|st.log|] == Message(MessageKind, Text(ReplyText(a)), Bot, now)
    ensures Mirrored(r) && SameExcept(st.storage, r.storage, {ActiveKey})
    ensures !r.typing && !r.typingShown
  {
    Append(st.(typing := false, typingShown := false), NewMessage(Text(ReplyText(a)), Bot, now))
  }

  /** The two replies differ only when the indicator element has gone while
      `isTyping` is still set. */
  lemma ReceiveAgreesWhenShown(st: State, a: AskResult, now: int)
    requires st.typing == st.typingShown
    ensures ReceiveAsWritten(st, a, now) == Receive(st, a, now)
  {
  }

  /** As written, a new chat started while a request is in flight empties
      the chat body and with it the typing indicator; the reply then leaves
      `isTyping` set, and from then on every submission is ignored. */
  lemma TypingStuckAfterNewChat(st: State, cfg: Config, input: string, stamp: string,
                                a: AskResult, later: string, t1: int, t2: int, t3: int, t4: int)
    requires !st.typing && !AllSpace(input)
    ensures var s1 := Submit(st, input, t1);
      var s2 := StartNewChat(s1, cfg, stamp, t2);
      var s3 := ReceiveAsWritten(s2, a, t3);
      s3.typing && Submit(s3, later, t4) == s3
  {
  }

  /** With the correction, a reply always re-enables sending: the next
      non-blank submission is appended. */
  lemma ReceiveReenablesSend(st: State, a: AskResult, later: string, t1: int, t2: int)
    requires !AllSpace(later)
    ensures var s := Receive(st, a, t1);
      |Submit(s, later, t2).log| == |s.log| + 1
  {
  }

  /** A whole exchange with nothing in between: a non-blank input when no
      request is in flight ends with the user message and exactly one bot
      reply appended, written through, and sending enabled again. */
  function SendExchange(st: State, input: string, a: AskResult, t1: int, t2: int): (r: State)
    ensures st.typing || AllSpace(input) ==> r == st
    ensures !st.typing && !AllSpace(input) ==>
      && r.log == st.log + [Message(MessageKind, Text(Trim(input)), User, t1),
                            Message(MessageKind, Text(ReplyText(a)), Bot, t2)]
      && Mirrored(r) && !r.typing
  {
    TrimEmptyIffBlank(input);
    if st.typing || Trim(input) == "" then st
    else
      var u := Message(MessageKind, Text(Trim(input)), User, t1);
      var s := Submit(st, input, t1);
      assert s.log == st.log + [u];
      ReplyAfterSubmit(st, s, u, a, t2);
      ReceiveAsWritten(s, a, t2)
  }

  /** The reply that follows an accepted submission appends after the
      user's message and clears the typing flag. */
  lemma ReplyAfterSubmit(st: State, s: State, u: Message, a: AskResult, t: int)
    requires s.log == st.log + [u] && s.typing && s.typingShown
    ensures var r := ReceiveAsWritten(s, a, t);
      r.log == st.log + [u, Message(MessageKind, Text(ReplyText(a)), Bot, t)] && Mirrored(r) && !r.typing
  {
  }
}

=== FILE: session.dfy ===
/** The widget as a sequence of user and network events over one state, and
    the properties that hold across operations: archives change only when a
    new chat is started or history is cleared, the active slot mirrors the
    log except after a restore, and every conversation the store writes
    starts with a text message, so the history menu always renders fully. */
module Session {
  import opened Wrappers
  import opened Strings
  import opened Model
  import opened Store
  import opened HistoryList
  import opened Upload
  import opened Send

  datatype Event =
    | SubmitInput(input: string, now: int)
    | ReplyArrived(result: AskResult, now: int)
    | FileChosen(file: Option<SelectedFile>, url: string, now: int)
    | NewChat(stamp: string, now: int)
    | ClearHistory(now: int)
    | OpenArchive(key: string)

  /** Which reply handler runs: the code as written, or the corrected one
      that clears `isTyping` on every reply. */
  datatype Build = AsWritten | Corrected

  /** The event that a click in the history menu can raise: the menu only
      offers keys with the archive prefix. */
  predicate FromMenu(e: Event) {
    e.OpenArchive? ==> StartsWith(e.key, ArchivePrefix)
  }

  /** One event. A restore whose value does not parse throws before it
      changes anything, so the state stays as it was. A restore never
      writes storage; every other event leaves the log written through. */
  function Step(st: State, cfg: Config, b: Build, e: Event): (r: State)
    ensures e.OpenArchive? ==> r.storage == st.storage && r.typing == st.typing
    ensures !e.OpenArchive? && Mirrored(st) ==> Mirrored(r)
  {
    match e
    case SubmitInput(input, now) => Submit(st, input, now)
    case ReplyArrived(a, now) => if b == AsWritten then ReceiveAsWritten(st, a, now) else Receive(st, a, now)
    case FileChosen(file, url, now) => HandleFileUpload(st, cfg, file, url, now).0
    case NewChat(stamp, now) => StartNewChat(st, cfg, stamp, now)
    case ClearHistory(now) => ClearAll(st, cfg, now)
    case OpenArchive(key) =>
      match Restore(st, key)
      case Ok(s) => s
      case Err(_) => st
  }

  function Run(st: State, cfg: Config, b: Build, events: seq<Event>): State
    decreases |events|
  {
    if events == [] then st else Run(Step(st, cfg, b, events[0]), cfg, b, events[1..])
  }

  /** Outside the active slot, no event creates or alters a key except the
      archive key a new chat writes, and only clearing removes keys. */
  lemma StepKeepsArchives(st: State, cfg: Config, b: Build, e: Event)
    ensures var r := Step(st, cfg, b, e);
      forall k :: k != ActiveKey && k in r.storage ==>
        (k in st.storage && r.storage[k] == st.storage[k]) || (e.NewChat? && k == ArchiveKey(e.stamp))
    ensures !e.ClearHistory? ==> forall k :: k in st.storage ==> k in Step(st, cfg, b, e).storage
  {
  }

  /** Every event except a restore leaves the active slot holding the log. */
  lemma StepMirrors(st: State, cfg: Config, b: Build, e: Event)
    requires Mirrored(st)
    requires !e.OpenArchive?
    ensures Mirrored(Step(st, cfg, b, e))
  {
  }

  /** A restore that brings in a different conversation leaves the active
      slot holding the old one: the log and its slot disagree until the next
      write-through. */
  lemma RestoreBreaksMirror(st: State, key: string)
    requires Mirrored(st)
    requires key in st.storage && st.storage[key].Parsed? && st.storage[key].messages != st.log
    ensures Restore(st, key).Ok? && !Mirrored(Restore(st, key).value)
  {
  }

  /** The next appended message after a restore writes the restored
      conversation through to the active slot. */
  lemma RestoreThenAppendMirrors(st: State, key: string, m: Message)
    requires key in st.storage && st.storage[key].Parsed?
    ensures Restore(st, key).Ok?
    ensures var r := Append(Restore(st, key).value, m);
      Mirrored(r) && r.storage[ActiveKey] == Parsed(st.storage[key].messages + [m])
  {
  }

  /** An archive key is listed by its prefix and removed by clearing. */
  lemma ArchiveKeyHasPrefix(stamp: string)
    ensures StartsWith(ArchiveKey(stamp), ArchivePrefix) && StartsWith(ArchiveKey(stamp), ActiveKey)
  {
  }

  /** Every key the menu can list is a history key other than the active one. */
  lemma ArchivePrefixExtendsActive(k: string)
    requires StartsWith(k, ArchivePrefix)
    ensures StartsWith(k, ActiveKey) && k != ActiveKey
  {
  }

  /** Starting a new chat from a non-empty log lists the archive, with the
      first message of the old log as its time stamp and preview. */
  lemma NewChatIsListed(st: State, cfg: Config, stamp: string, now: int)
    requires |st.log| > 0
    ensures var r := StartNewChat(st, cfg, stamp, now);
      && Listed(r.storage, ArchiveKey(stamp))
      && ItemFor(r.storage, ArchiveKey(stamp)) == HistoryItem(ArchiveKey(stamp), st.log[0].timestamp, st.log[0].content)
  {
  }

  /** Opening the archive a new chat just made gives back the old log
      exactly, and leaves storage as the new chat left it. */
  lemma NewChatThenRestore(st: State, cfg: Config, stamp: string, now: int)
    requires |st.log| > 0
    ensures var r := StartNewChat(st, cfg, stamp, now);
      Restore(r, ArchiveKey(stamp)) == Ok(r.(log := st.log))
  {
  }

  /** After clearing, no key is listed and the log is the welcome message. */
  lemma ClearAllEmptiesList(st: State, cfg: Config, now: int)
    ensures var r := ClearAll(st, cfg, now);
      (forall k :: !Listed(r.storage, k)) && r.log == [Welcome(cfg, now)]
  {
    var r := ClearAll(st, cfg, now);
    forall k ensures !Listed(r.storage, k) {
      if StartsWith(k, ArchivePrefix) {
        ArchivePrefixExtendsActive(k);
      }
    }
  }

  /** The first-visit flag is not a history key, so no event, clearing
      included, creates, removes or changes it. */
  lemma StepKeepsVisited(st: State, cfg: Config, b: Build, e: Event)
    ensures var r := Step(st, cfg, b, e);
      (VisitedKey in r.storage <==> VisitedKey in st.storage)
      && (VisitedKey in st.storage ==> r.storage[VisitedKey] == st.storage[VisitedKey])
  {
    assert VisitedKey[13] != ActiveKey[13];
    StepKeepsArchives(st, cfg, b, e);
    if e.NewChat? {
      assert VisitedKey != ArchiveKey(e.stamp) by {
        ArchiveKeyHasPrefix(e.stamp);
      }
    }
  }

  /** Of two listed conversations, the one whose first message is newer is
      shown first. */
  lemma NewerListedFirst(items: seq<HistoryItem>, i: int, j: int)
    requires NewestFirst(items)
    requires 0 <= i < |items| && 0 <= j < |items|
    requires items[i].timestamp < items[j].timestamp
    ensures j < i
  {
  }

  ghost predicate StartsWithText(msgs: seq<Message>) {
    |msgs| > 0 && msgs[0].content.Text?
  }

  /** Every conversation of the widget, the active log and each one stored
      under a history key, begins with a text message. Keys of other
      scripts are not constrained. */
  ghost predicate WellFormed(st: State) {
    StartsWithText(st.log) && HistoryHolds(st.storage, false)
  }

  /** Every conversation stored under a history key begins with text (when
      `tags` is false) or has every entry tagged (when `tags` is true). */
  ghost predicate HistoryHolds(storage: Storage, tags: bool) {
    forall k :: k in storage && StartsWith(k, ActiveKey) && storage[k].Parsed? ==>
      ConversationHolds(storage[k].messages, tags)
  }

  ghost predicate ConversationHolds(msgs: seq<Message>, tags: bool) {
    if tags then AllTagged(msgs) else StartsWithText(msgs)
  }

  /** A conversation that has the property keeps it when a tagged entry
      is appended. */
  lemma AppendHolds(msgs: seq<Message>, m: Message, tags: bool)
    requires ConversationHolds(msgs, tags) && m.kind == MessageKind
    ensures ConversationHolds(msgs + [m], tags)
  {
    if !tags {
      assert (msgs + [m])[0] == msgs[0];
    }
  }

  /** Storage that differs from a good one only in the active slot, which
      mirrors a good log, is good. */
  lemma MirrorHolds(a: Storage, st: State, tags: bool)
    requires HistoryHolds(a, tags) && SameExcept(a, st.storage, {ActiveKey})
    requires Mirrored(st) && ConversationHolds(st.log, tags)
    ensures HistoryHolds(st.storage, tags)
  {
  }

  /** The same, when a new chat has also written a good log to its
      archive key. */
  lemma ArchiveHolds(a: Storage, st: State, key: string, msgs: seq<Message>, tags: bool)
    requires HistoryHolds(a, tags) && SameExcept(a, st.storage, {ActiveKey, key})
    requires Mirrored(st) && ConversationHolds(st.log, tags)
    requires key in st.storage && st.storage[key] == Parsed(msgs) && ConversationHolds(msgs, tags)
    ensures HistoryHolds(st.storage, tags)
  {
  }

  /** An event that appends one tagged entry, written through, keeps the
      property. */
  lemma AppendedHolds(st: State, r: State, tags: bool)
    requires HistoryHolds(st.storage, tags) && ConversationHolds(st.log, tags)
    requires |r.log| == |st.log| + 1 && r.log[..|st.log|] == st.log && r.log[|st.log|].kind == MessageKind
    requires Mirrored(r) && SameExcept(st.storage, r.storage, {ActiveKey})
    ensures HistoryHolds(r.storage, tags) && ConversationHolds(r.log, tags)
  {
    AppendHolds(st.log, r.log[|st.log|], tags);
    assert r.log == st.log + [r.log[|st.log|]];
    MirrorHolds(st.storage, r, tags);
  }

  /** A new chat keeps the property: the archive is the old log and the
      active slot holds the welcome message. */
  lemma NewChatHolds(st: State, cfg: Config, stamp: string, now: int, tags: bool)
    requires HistoryHolds(st.storage, tags) && ConversationHolds(st.log, tags)
    ensures var r := StartNewChat(st, cfg, stamp, now);
      HistoryHolds(r.storage, tags) && ConversationHolds(r.log, tags)
  {
    var r := StartNewChat(st, cfg, stamp, now);
    assert r.log[0] == Welcome(cfg, now);
    if |st.log| > 0 {
      ArchiveHolds(st.storage, r, ArchiveKey(stamp), st.log, tags);
    } else {
      MirrorHolds(st.storage, r, tags);
    }
  }

  /** Clearing keeps the property: the active slot is the only history key
      left, and it holds the welcome message. */
  lemma ClearHolds(st: State, cfg: Config, now: int, tags: bool)
    ensures var r := ClearAll(st, cfg, now);
      HistoryHolds(r.storage, tags) && ConversationHolds(r.log, tags)
  {
    var r := ClearAll(st, cfg, now);
    assert r.log[0] == Welcome(cfg, now);
  }

  /** Whatever an event does to the log and storage, it keeps the property. */
  lemma StepHolds(st: State, cfg: Config, b: Build, e: Event, tags: bool)
    requires HistoryHolds(st.storage, tags) && ConversationHolds(st.log, tags)
    requires FromMenu(e)
    ensures HistoryHolds(Step(st, cfg, b, e).storage, tags)
    ensures ConversationHolds(Step(st, cfg, b, e).log, tags)
  {
    var r := Step(st, cfg, b, e);
    match e {
      case SubmitInput(input, now) =>
        if !st.typing && !AllSpace(input) {
          AppendedHolds(st, r, tags);
        }
      case ReplyArrived(_, _) =>
        AppendedHolds(st, r, tags);
      case FileChosen(file, _, _) =>
        if file.Some? && Validate(cfg, file.value) == Accepted {
          AppendedHolds(st, r, tags);
        }
      case NewChat(stamp, now) =>
        NewChatHolds(st, cfg, stamp, now, tags);
      case ClearHistory(now) =>
        ClearHolds(st, cfg, now, tags);
      case OpenArchive(key) =>
        if key in st.storage && st.storage[key].Parsed? {
          ArchivePrefixExtendsActive(key);
        }
    }
  }

  /** Starting from storage whose history keys all hold conversations that
      begin with text, the startup state is well formed. */
  lemma StartupWellFormed(storage: Storage, cfg: Config, now: int)
    requires HistoryHolds(storage, false)
    ensures Startup(storage, cfg, now).Ok? ==> WellFormed(Startup(storage, cfg, now).value)
  {
  }

  /** Every event the widget can raise keeps every conversation beginning
      with text. */
  lemma StepWellFormed(st: State, cfg: Config, b: Build, e: Event)
    requires WellFormed(st)
    requires FromMenu(e)
    ensures WellFormed(Step(st, cfg, b, e))
  {
    StepHolds(st, cfg, b, e, false);
  }

  lemma {:induction false} RunWellFormed(st: State, cfg: Config, b: Build, events: seq<Event>)
    requires WellFormed(st)
    requires forall i :: 0 <= i < |events| ==> FromMenu(events[i])
    ensures WellFormed(Run(st, cfg, b, events))
    decreases |events|
  {
    if events != [] {
      StepWellFormed(st, cfg, b, events[0]);
      RunWellFormed(Step(st, cfg, b, events[0]), cfg, b, events[1..]);
    }
  }

  /** In a well-formed state the menu renders a preview line for every
      listed conversation: no first message is a file. */
  lemma ListFullyRendered(st: State, items: seq<HistoryItem>)
    requires WellFormed(st)
    requires forall it :: it in items ==> Listed(st.storage, it.key) && it == ItemFor(st.storage, it.key)
    ensures |RenderPreviews(items)| == |items|
  {
    assert forall i :: 0 <= i < |items| ==> items[i] in items;
    RenderAll(items);
  }

  /** Every entry of the active log and of every stored history conversation
      carries the "message" type tag. */
  ghost predicate Tagged(st: State) {
    AllTagged(st.log) && HistoryHolds(st.storage, true)
  }

  /** Every entry an event adds to the log is tagged "message", so tagging
      survives every event the widget can raise. */
  lemma StepTagged(st: State, cfg: Config, b: Build, e: Event)
    requires Tagged(st)
    requires FromMenu(e)
    ensures Tagged(Step(st, cfg, b, e))
  {
    StepHolds(st, cfg, b, e, true);
  }

  /** In a tagged state the indicator counts every entry of the log. */
  lemma TaggedIndicator(st: State)
    requires Tagged(st)
    ensures CountMessages(st.log) == |st.log|
    ensures IndicatorLabel(st.log) == NewChatLabel <==> |st.log| <= 1
  {
  }
}

=== FILE: store.dfy ===
/** The conversation store: appending with write-through to the active slot,
    the startup load, starting a new chat, clearing all history, restoring an
    archive, and the header's message-count indicator. */
module Store {
  import opened Wrappers
  import opened Strings
  import opened Model

  /** Every message the widget creates carries the "message" type tag. */
  function NewMessage(content: Content, sender: Sender, now: int): Message {
    Message(MessageKind, content, sender, now)
  }

  /** The seeded bot greeting of a fresh conversation. */
  function Welcome(cfg: Config, now: int): Message {
    NewMessage(Text(cfg.welcomeMessage), Bot, now)
  }

  /** `addMessage` with `saveToHistory` set: push onto the log, then flush the
      whole log to the active slot. */
  function Append(st: State, m: Message): (r: State)
    ensures |r.log| == |st.log| + 1 && r.log[..|st.log|] == st.log && r.log[|st.log|] == m
    ensures Mirrored(r)
    ensures SameExcept(st.storage, r.storage, {ActiveKey})
    ensures r.typing == st.typing && r.typingShown == st.typingShown
  {
    var log := st.log + [m];
    assert log[..|st.log|] == st.log;
    st.(log := log, storage := st.storage[ActiveKey := Parsed(log)])
  }

  /** Every entry carries the "message" type tag. */
  ghost predicate AllTagged(log: seq<Message>) {
    forall i :: 0 <= i < |log| ==> log[i].kind == MessageKind
  }

  /** Number of entries whose type tag is "message": never more than the
      log's length, and equal to it exactly when every entry is tagged. */
  function CountMessages(log: seq<Message>): (c: nat)
    ensures c <= |log|
    ensures c == |log| <==> AllTagged(log)
  {
    if log == [] then 0
    else
      var init := log[..|log| - 1];
      assert forall i :: 0 <= i < |init| ==> init[i] == log[i];
      CountMessages(init) + (if log[|log| - 1].kind == MessageKind then 1 else 0)
  }

  /** Appending one entry raises the count by one exactly when the entry is
      tagged "message". */
  lemma CountAppend(log: seq<Message>, m: Message)
    ensures CountMessages(log + [m]) == CountMessages(log) + (if m.kind == MessageKind then 1 else 0)
  {
  }

  const NewChatLabel := "New Chat"
  const CountSuffix := " messages"

  /** `updateHistoryIndicator`: "N messages" when more than one entry is a
      message, "New Chat" otherwise. */
  function IndicatorLabel(log: seq<Message>): (l: string)
    ensures l == NewChatLabel <==> CountMessages(log) <= 1
    ensures l != NewChatLabel ==> |l| > |CountSuffix| && l[|l| - |CountSuffix|..] == CountSuffix
  {
    var n := CountMessages(log);
    if n > 1 then
      var l := NatToString(n) + CountSuffix;
      assert |l| > |NewChatLabel|;
      assert l[|l| - |CountSuffix|..] == CountSuffix;
      l
    else NewChatLabel
  }

  /** The label says "New Chat" exactly when at most one message is logged,
      and otherwise reads back, before its " messages" suffix, as the count. */
  lemma IndicatorLabelRoundTrip(log: seq<Message>)
    ensures IndicatorLabel(log) == NewChatLabel <==> CountMessages(log) <= 1
    ensures CountMessages(log) > 1 ==>
      var l := IndicatorLabel(log);
      && |l| > |CountSuffix|
      && l[|l| - |CountSuffix|..] == CountSuffix
      && (forall i :: 0 <= i < |l| - |CountSuffix| ==> IsDigit(l[i]))
      && DecimalValue(l[..|l| - |CountSuffix|]) == CountMessages(log)
  {
    var n := CountMessages(log);
    if n > 1 {
      var l := IndicatorLabel(log);
      DecimalRoundTrip(n);
      assert l[..|l| - |CountSuffix|] == NatToString(n);
      assert l[|l| - |CountSuffix|..] == CountSuffix;
      assert |l| > |NewChatLabel|;
    }
  }

  /** After an append the indicator reflects the new log: "N messages" when
      the appended entry takes the count N past one, otherwise as before the
      append or "New Chat". */
  lemma AppendIndicator(st: State, m: Message)
    requires m.kind == MessageKind
    ensures CountMessages(Append(st, m).log) == CountMessages(st.log) + 1
    ensures CountMessages(st.log) >= 1 ==>
      IndicatorLabel(Append(st, m).log) == NatToString(CountMessages(st.log) + 1) + CountSuffix
    ensures CountMessages(st.log) == 0 ==> IndicatorLabel(Append(st, m).log) == NewChatLabel
  {
  }

  /** The load branch of `createChatBody`: a stored active slot is adopted as
      the log as it stands; an absent (or empty-string) slot seeds the welcome
      message, which is written through; a slot that does not parse makes
      `JSON.parse` throw. */
  function Startup(storage: Storage, cfg: Config, now: int): (r: Result<State, Error>)
    ensures r.Err? <==> ActiveKey in storage && storage[ActiveKey].Malformed?
    ensures r.Ok? ==> Mirrored(r.value) && !r.value.typing && !r.value.typingShown
    ensures ActiveKey in storage && storage[ActiveKey].Parsed? ==>
      r.Ok? && r.value.log == storage[ActiveKey].messages && r.value.storage == storage
    ensures (ActiveKey !in storage || storage[ActiveKey].Blank?) ==>
      r.Ok? && r.value.log == [Welcome(cfg, now)] && SameExcept(storage, r.value.storage, {ActiveKey})
  {
    var empty := State([], storage, false, false);
    if ActiveKey !in storage then Ok(Append(empty, Welcome(cfg, now)))
    else match storage[ActiveKey]
      case Parsed(msgs) => Ok(State(msgs, storage, false, false))
      case Blank => Ok(Append(empty, Welcome(cfg, now)))
      case Malformed => Err(ParseError)
  }

  /** `startNewChat`: a non-empty log is copied to the archive key for
      `stamp` (overwriting whatever that key held), then the log restarts as
      the welcome message alone, written through. The chat body is emptied,
      which removes the typing indicator. */
  function StartNewChat(st: State, cfg: Config, stamp: string, now: int): (r: State)
    ensures r.log == [Welcome(cfg, now)] && Mirrored(r)
    ensures |st.log| > 0 ==>
      ArchiveKey(stamp) in r.storage && r.storage[ArchiveKey(stamp)] == Parsed(st.log)
      && SameExcept(st.storage, r.storage, {ActiveKey, ArchiveKey(stamp)})
    ensures |st.log| == 0 ==> SameExcept(st.storage, r.storage, {ActiveKey})
    ensures r.typing == st.typing && !r.typingShown
  {
    ArchiveKeyIsNotActive(stamp);
    var archived := if |st.log| > 0 then st.storage[ArchiveKey(stamp) := Parsed(st.log)] else st.storage;
    var cleared := State([], archived[ActiveKey := Parsed([])], st.typing, false);
    Append(cleared, Welcome(cfg, now))
  }

  /** `clearHistory`: every key starting with "saas-chatbot-history" (the
      active slot included) is removed, then the log restarts as the welcome
      message alone, written through. Other keys are left alone. */
  function ClearAll(st: State, cfg: Config, now: int): (r: State)
    ensures r.log == [Welcome(cfg, now)] && Mirrored(r)
    ensures forall k :: k in r.storage && StartsWith(k, ActiveKey) ==> k == ActiveKey
    ensures forall k :: !StartsWith(k, ActiveKey) ==>
      (k in r.storage <==> k in st.storage) && (k in st.storage ==> r.storage[k] == st.storage[k])
    ensures r.typing == st.typing && !r.typingShown
  {
    var kept := map k | k in st.storage && !StartsWith(k, ActiveKey) :: st.storage[k];
    var cleared := State([], kept[ActiveKey := Parsed([])], st.typing, false);
    Append(cleared, Welcome(cfg, now))
  }

  /** `loadHistory`: a missing key changes nothing; a stored message array
      becomes the in-memory log (and the chat body is re-rendered, dropping
      the typing indicator); a value that does not parse makes `JSON.parse`
      throw before anything changes. Storage is never written. */
  function Restore(st: State, key: string): (r: Result<State, Error>)
    ensures key !in st.storage ==> r == Ok(st)
    ensures r.Err? <==> key in st.storage && !st.storage[key].Parsed?
    ensures r.Ok? ==> r.value.storage == st.storage && r.value.typing == st.typing
    ensures key in st.storage && st.storage[key].Parsed? ==>
      r.Ok? && r.value.log == st.storage[key].messages && !r.value.typingShown
  {
    if key !in st.storage then Ok(st)
    else match st.storage[key]
      case Parsed(msgs) => Ok(st.(log := msgs, typingShown := false))
      case _ => Err(ParseError)
  }

  /** Restoring an archive and starting a new chat right away archives an
      exact copy of the restored conversation again under the new stamp. */
  lemma RestoreThenNewChat(st: State, cfg: Config, key: string, stamp: string, now: int)
    requires key in st.storage && st.storage[key].Parsed? && |st.storage[key].messages| > 0
    ensures Restore(st, key).Ok?
    ensures var r := StartNewChat(Restore(st, key).value, cfg, stamp, now);
      r.storage[ArchiveKey(stamp)] == st.storage[key]
  {
  }
}

=== FILE: strings.dfy ===
/** The JavaScript string operations the widget relies on: `startsWith`,
    `trim`, `toLowerCase`, `split('.').pop()`, `join` and number-to-text. */
module Strings {

  predicate StartsWith(s: string, prefix: string) {
    |prefix| <= |s| && s[..|prefix|] == prefix
  }

  /** The code points JavaScript counts as WhiteSpace or LineTerminator,
      which `String.prototype.trim` removes from both ends. */
  predicate IsJsSpace(c: char) {
    || c == '\t' || c == '\U{000B}' || c == '\U{000C}' || c == ' '
    || c == '\U{00A0}' || c == '\U{FEFF}' || c == '\U{1680}'
    || ('\U{2000}' <= c <= '\U{200A}')
    || c == '\U{202F}' || c == '\U{205F}' || c == '\U{3000}'
    || c == '\n' || c == '\r' || c == '\U{2028}' || c == '\U{2029}'
  }

  predicate AllSpace(s: string) {
    forall i :: 0 <= i < |s| ==> IsJsSpace(s[i])
  }

  /** Drops the leading white space: the result is the suffix of `s` that
      starts at its first non-space character. */
  function TrimStart(s: string): (r: string)
    ensures |r| <= |s| && r == s[|s| - |r|..]
    ensures AllSpace(s[..|s| - |r|])
    ensures r == [] || !IsJsSpace(r[0])
  {
    if s != [] && IsJsSpace(s[0]) then TrimStart(s[1..]) else s
  }

  /** Drops the trailing white space: the result is the prefix of `s` that
      ends at its last non-space character. */
  function TrimEnd(s: string): (r: string)
    ensures |r| <= |s| && r == s[..|r|]
    ensures AllSpace(s[|r|..])
    ensures r == [] || !IsJsSpace(r[|r| - 1])
  {
    if s != [] && IsJsSpace(s[|s| - 1]) then TrimEnd(s[..|s| - 1]) else s
  }

  /** `s.trim()`: neither end of the result is white space, and what was
      cut off on either side was white space only. */
  function Trim(s: string): (r: string)
    ensures |r| <= |s|
    ensures r == [] || (!IsJsSpace(r[0]) && !IsJsSpace(r[|r| - 1]))
    ensures exists a, b :: 0 <= a <= b <= |s| && r == s[a..b] && AllSpace(s[..a]) && AllSpace(s[b..])
  {
    var t := TrimStart(s);
    var r := TrimEnd(t);
    var a := |s| - |t|;
    assert r == s[a..a + |r|];
    assert s[a + |r|..] == t[|r|..];
    r
  }

  /** Trimming yields the empty string exactly when the input is all white
      space (the empty input included). */
  lemma TrimEmptyIffBlank(s: string)
    ensures Trim(s) == [] <==> AllSpace(s)
  {
  }

  /** Trimming twice is trimming once. */
  lemma TrimIdempotent(s: string)
    ensures Trim(Trim(s)) == Trim(s)
  {
  }

  /** Case folding of the characters whose lower case is ASCII and one
      character long: A-Z, and the Kelvin sign, which `toLowerCase` turns
      into `k`. Every other character is left as it is. */
  function LowerChar(c: char): char {
    if 'A' <= c <= 'Z' then (c as int + 32) as char
    else if c == '\U{212A}' then 'k'
    else c
  }

  function ToLower(s: string): (r: string)
    ensures |r| == |s|
    ensures forall i :: 0 <= i < |s| ==> r[i] == LowerChar(s[i])
  {
    seq(|s|, i requires 0 <= i < |s| => LowerChar(s[i]))
  }

  /** Lower-casing leaves no upper-case ASCII letter and changes nothing on a
      second application. */
  lemma ToLowerIdempotent(s: string)
    ensures forall i :: 0 <= i < |ToLower(s)| ==> !('A' <= ToLower(s)[i] <= 'Z')
    ensures ToLower(ToLower(s)) == ToLower(s)
  {
  }

  /** `s.split('.').pop()`: the longest suffix of `s` without a dot, which is
      the whole of `s` when it has no dot at all. */
  function AfterLastDot(s: string): (r: string)
    ensures |r| <= |s| && r == s[|s| - |r|..]
    ensures '.' !in r
    ensures |r| < |s| ==> s[|s| - |r| - 1] == '.'
  {
    if s == [] then []
    else if s[|s| - 1] == '.' then []
    else AfterLastDot(s[..|s| - 1]) + [s[|s| - 1]]
  }

  /** The last segment is the whole name exactly when the name has no dot. */
  lemma AfterLastDotWhole(s: string)
    ensures AfterLastDot(s) == s <==> '.' !in s
  {
  }

  /** The last segment of a name that ends in a dot followed by dot-free
      text is that text. */
  lemma {:induction false} AfterLastDotSplit(stem: string, ext: string)
    requires '.' !in ext
    ensures AfterLastDot(stem + ['.'] + ext) == ext
  {
    var s := stem + ['.'] + ext;
    if ext != [] {
      var init := ext[..|ext| - 1];
      assert s[..|s| - 1] == stem + ['.'] + init;
      assert s[|s| - 1] == ext[|ext| - 1];
      assert ext[|ext| - 1] in ext;
      assert '.' !in init by {
        assert forall c :: c in init ==> c in ext;
      }
      AfterLastDotSplit(stem, init);
      assert ext == init + [ext[|ext| - 1]];
    }
  }

  /** `parts.join(sep)`. */
  function Join(parts: seq<string>, sep: string): string {
    if |parts| == 0 then ""
    else if |parts| == 1 then parts[0]
    else parts[0] + sep + Join(parts[1..], sep)
  }

  predicate IsDigit(c: char) {
    '0' <= c <= '9'
  }

  function DigitChar(d: nat): (c: char)
    requires d < 10
    ensures IsDigit(c) && c as int - '0' as int == d
  {
    ('0' as int + d) as char
  }

  /** The decimal text of a natural number, as JavaScript's template strings
      render an integer: no sign, no leading zero. */
  function NatToString(n: nat): (s: string)
    ensures |s| > 0 && forall i :: 0 <= i < |s| ==> IsDigit(s[i])
    ensures |s| > 1 ==> s[0] != '0'
    decreases n
  {
    if n < 10 then [DigitChar(n)] else NatToString(n / 10) + [DigitChar(n % 10)]
  }

  /** The value of a string of decimal digits. */
  function DecimalValue(s: string): nat
    requires forall i :: 0 <= i < |s| ==> IsDigit(s[i])
  {
    if s == [] then 0
    else
      assert IsDigit(s[|s| - 1]);
      DecimalValue(s[..|s| - 1]) * 10 + (s[|s| - 1] as int - '0' as int)
  }

  /** Reading the decimal text of `n` back gives `n`. */
  lemma {:induction false} DecimalRoundTrip(n: nat)
    ensures DecimalValue(NatToString(n)) == n
    decreases n
  {
    if n >= 10 {
      var s := NatToString(n);
      DecimalRoundTrip(n / 10);
      assert s[..|s| - 1] == NatToString(n / 10);
    }
  }
}

=== FILE: upload.dfy ===
/** `handleFileUpload`: the extension check, then the size check, then one
    user message carrying the file descriptor. */
module Upload {
  import opened Wrappers
  import opened Strings
  import opened Model
  import opened Store

  /** The selected file as the file input reports it. */
  datatype SelectedFile = SelectedFile(name: string, size: nat)

  datatype Verdict = Accepted | BadType | TooLarge

  /** `file.name.split('.').pop().toLowerCase()`: the lower-cased text after
      the last dot, or the whole name lower-cased when it has no dot. */
  function Extension(name: string): (ext: string)
    ensures '.' !in ext
    ensures |ext| <= |name| && ext == ToLower(name[|name| - |ext|..])
    ensures |ext| < |name| ==> name[|name| - |ext| - 1] == '.'
    ensures '.' !in name ==> ext == ToLower(name)
  {
    var seg := AfterLastDot(name);
    AfterLastDotWhole(name);
    assert seg == name[|name| - |seg|..];
    LowerKeepsDotFree(seg);
    ToLower(seg)
  }

  /** Lower-casing never introduces a dot. */
  lemma LowerKeepsDotFree(s: string)
    requires '.' !in s
    ensures '.' !in ToLower(s)
  {
    forall i | 0 <= i < |s| ensures ToLower(s)[i] != '.' {
      assert s[i] in s;
    }
  }

  /** A name made of any stem, a dot and dot-free text has that text,
      lower-cased, as its extension. */
  lemma ExtensionDotted(stem: string, x: string)
    requires '.' !in x
    ensures Extension(stem + ['.'] + x) == ToLower(x)
  {
    AfterLastDotSplit(stem, x);
  }

  /** `maxFileSize` megabytes, in bytes. */
  function MaxBytes(cfg: Config): nat {
    cfg.maxFileSize * 1024 * 1024
  }

  /** The type check comes first, so a file that is both of a wrong type and
      too large is reported as a wrong type. */
  function Validate(cfg: Config, f: SelectedFile): (v: Verdict)
    ensures v == BadType <==> Extension(f.name) !in cfg.allowedFileTypes
    ensures v == TooLarge <==> Extension(f.name) in cfg.allowedFileTypes && f.size > MaxBytes(cfg)
    ensures v == Accepted <==> Extension(f.name) in cfg.allowedFileTypes && f.size <= MaxBytes(cfg)
  {
    if Extension(f.name) !in cfg.allowedFileTypes then BadType
    else if f.size > MaxBytes(cfg) then TooLarge
    else Accepted
  }

  const BadTypeStatus := "Invalid file type. Allowed: "
  const TooLargeStatus := "File too large (max "
  const UploadedStatus := "Uploaded: "

  /** The text the status line shows once the file has been handled. Each
      verdict has its own opening words, so the verdict can be read back from
      the text, and an accepted file's text names the file. */
  function StatusText(cfg: Config, f: SelectedFile, v: Verdict): (t: string)
    ensures StartsWith(t, BadTypeStatus) <==> v == BadType
    ensures StartsWith(t, TooLargeStatus) <==> v == TooLarge
    ensures StartsWith(t, UploadedStatus) <==> v == Accepted
    ensures v == Accepted ==> t[|UploadedStatus|..] == f.name
  {
    var t := match v
      case BadType => BadTypeStatus + Join(cfg.allowedFileTypes, ", ")
      case TooLarge => TooLargeStatus + NatToString(cfg.maxFileSize) + "MB)"
      case Accepted => UploadedStatus + f.name;
    assert t[0] == (match v case BadType => 'I' case TooLarge => 'F' case Accepted => 'U');
    assert t[..|BadTypeStatus|] == BadTypeStatus <== v == BadType;
    assert t[..|TooLargeStatus|] == TooLargeStatus <== v == TooLarge;
    assert t[..|UploadedStatus|] == UploadedStatus <== v == Accepted;
    t
  }

  /** The whole handler: no file selected changes nothing and shows nothing;
      a rejected file leaves the log and storage as they are; an accepted one
      appends exactly one user message with the file's name, size and object
      URL, written through. The status text goes with the new state. */
  function HandleFileUpload(st: State, cfg: Config, file: Option<SelectedFile>, url: string, now: int)
    : (r: (State, Option<string>))
    ensures file.None? ==> r == (st, None)
    ensures file.Some? ==> r.1 == Some(StatusText(cfg, file.value, Validate(cfg, file.value)))
    ensures file.Some? && Validate(cfg, file.value) != Accepted ==> r.0 == st && r.1.Some?
    ensures file.Some? && Validate(cfg, file.value) == Accepted ==>
      var f := file.value;
      && |r.0.log| == |st.log| + 1 && r.0.log[..|st.log|] == st.log
      && r.0.log[|st.log|] == Message(MessageKind, File(f.name, url, f.size), User, now)
      && Mirrored(r.0)
      && SameExcept(st.storage, r.0.storage, {ActiveKey})
  {
    match file
    case None => (st, None)
    case Some(f) =>
      var v := Validate(cfg, f);
      if v != Accepted then (st, Some(StatusText(cfg, f, v)))
      else (Append(st, NewMessage(File(f.name, url, f.size), User, now)), Some(StatusText(cfg, f, v)))
  }

  /** Under the shipped configuration the extension is compared after
      lower-casing, and the limit is inclusive. */
  lemma DefaultUpperCaseExtension()
    ensures Validate(DefaultConfig, SelectedFile("Report.PDF", 5242880)) == Accepted
    ensures Validate(DefaultConfig, SelectedFile("Report.PDF", 5242881)) == TooLarge
  {
    AfterLastDotSplit("Report", "PDF");
    assert "Report" + ['.'] + "PDF" == "Report.PDF";
    assert ToLower("PDF") == "pdf";
    assert "pdf" in DefaultConfig.allowedFileTypes;
  }

  /** A Kelvin sign in the extension lower-cases to `k`, so it matches an
      allowed "mkv". */
  lemma KelvinExtension()
    ensures Validate(Config("", ["mkv"], 5), SelectedFile("clip.m\U{212A}v", 1)) == Accepted
  {
    ExtensionDotted("clip", "m\U{212A}v");
    assert "clip" + ['.'] + "m\U{212A}v" == "clip.m\U{212A}v";
    assert ToLower("m\U{212A}v") == "mkv";
  }

  /** The type check wins over the size check, and only the last segment of
      the name counts. */
  lemma DefaultTypeBeforeSize(stem: string, size: nat)
    ensures Validate(DefaultConfig, SelectedFile(stem + ".exe", size)) == BadType
  {
    ExtensionDotted(stem, "exe");
    assert stem + ".exe" == stem + ['.'] + "exe";
  }
}

=== FILE: wrappers.dfy ===
/** Failure-carrying values used across the model: an optional value and a
    success-or-error result. */
module Wrappers {

  datatype Option<+T> = None | Some(value: T)

  datatype Result<+T, +E> = Ok(value: T) | Err(error: E)
}
